=== FILE: README.md ===
# squeak: delegates and observables, modelled in Dafny

squeak is a small Rust crate with two types. A `Delegate<T>` is a registry of
callbacks keyed by subscription id. `broadcast(value)` runs every callback
registered when the pass starts, in ascending id order. An `Observable<T>`
pairs a value with a delegate and broadcasts the value after every `mutate`.

The model is functional:

- A delegate is a `map<Id, C>` from subscription ids to callback tokens.
- Ids come from one process-wide counter, `nextId`. Every operation that may
  subscribe takes the counter and returns it, so several delegates can share
  it.
- A callback's behaviour is an oracle `(C, T) -> Reaction<C>`. A reaction is
  the `Response` the callback returns, plus the subscribe and unsubscribe
  calls it makes on the same delegate while it runs (its reentrant actions).
- `broadcast` is a recursive fold, `Dispatch`, over the ascending snapshot of
  the keys. Each turn goes through `Invoke`:
  - it takes the entry out of the map;
  - it applies the callback's actions;
  - it puts the same callback back under the same id when the response is
    `StaySubscribed`.
- A snapshot id whose entry is gone when its turn comes makes
  `remove_entry(..).unwrap()` panic. The model gives the outcome
  `Panicked` there. It records the missing id, the calls made so far and
  the registry as the callbacks that ran left it.

`Delegates.Dispatch` follows the code, panic included. The crate documents
`unsubscribe` as a call that never fails. A subscription from another
delegate, or one already cancelled, "has no effect" (src/delegate.rs:81-82),
and line 83 reads: "Attempting to unsubscribe from within callback function
has no effect." Read literally, line 83 says a peer unsubscribed from inside
a callback stays registered and is still called. The code does not do that,
whichever peer is named:

- A callback that unsubscribes itself does get the no-effect behaviour,
  because its entry is out of the map while it runs
  (`DelegateLaws.SelfUnsubscribeIsNoop`).
- A callback that unsubscribes a peer with a lower id removes that peer for
  good, and the pass completes (`DelegateLaws.EarlierPeerUnsubscribeCompletes`).
- A callback that unsubscribes a peer with a higher id makes the pass panic
  when that peer's turn comes (`DelegateLaws.PeerUnsubscribePanics`).

So line 83 holds only for a self-unsubscribe. For a peer with a higher id,
this model takes the panic to be unintended, and removes the peer as the
code already does for one with a lower id: the removed id is skipped. That
choice is a judgement. Both it and the literal reading of line 83 rule out
the panic. The skipping pass is `Delegates.DispatchSkipping`, and it is
listed under Findings.
`DelegateLaws.DispatchCompletesIffNothingSkipped` shows the code panics
exactly when the skipping pass would skip an id.

`mutate` takes the observable exclusively, so a callback cannot reach the
observable while it runs. An observable's callbacks are therefore modelled by
their response alone. The as-written pass and the skipping pass agree on
such callbacks (`DelegateLaws.SkippingAgreesWithBroadcast`), and `Mutate`
uses the skipping one. The two accessors are modelled too:
`Observables.DelegateOf` (`delegate()`, src/observable.rs:101-103) and
`Observables.Value` (`Deref`, src/observable.rs:137-141). How they relate to
the other operations is stated by `Observables.SubscribeThroughDelegate`
and `Observables.ReadAfterMutate`.

Modules:

- `Snapshots`: the ascending enumeration of a key set.
- `Delegates`: `src/delegate.rs`.
- `DelegateLaws`: properties relating several calls.
- `Observables`: `src/observable.rs`.
- `Scenarios`: the repository's tests, stated as lemmas.

## Model

| member | source | states |
|---|---|---|
| Delegates.New | src/delegate.rs:35-39 | a new delegate has no subscriptions, so it meets the freshness invariant for every counter value |
| Delegates.Subscribe | src/delegate.rs:58-65 | the id returned is the counter's current value and the counter moves up by one. That key is added with the given callback and every other entry keeps its callback. When all keys were issued earlier, the id was not yet in the map and the invariant still holds afterwards |
| Delegates.Unsubscribe | src/delegate.rs:81-86 | exactly the subscription's id is removed and the other callbacks are kept. When the id is absent, the delegate is unchanged |
| DelegateLaws.SubscribeThenUnsubscribe | src/delegate.rs:58-86 | unsubscribing a fresh subscription gives back the delegate as it was before the subscribe |
| DelegateLaws.UnsubscribeTwiceIsNoop | src/delegate.rs:82 | a second unsubscribe with the same subscription changes nothing |
| Scenarios.ForeignUnsubscribeIsNoop | src/delegate.rs:81 | a subscription issued by any other delegate from the shared counter leaves this delegate unchanged when unsubscribed here, after any run of subscribes, unsubscribes, broadcasts and subscribes elsewhere on it since |
| DelegateLaws.Run | src/delegate.rs:58-143 | any run of subscribes, unsubscribes, broadcasts (ending at a panic) and subscribes on other delegates only moves the shared counter up, keeps the freshness invariant, and never adds or replaces an entry below the counter's starting value |
| DelegateLaws.Perform | src/delegate.rs:58-143 | the same for one operation |
| Delegates.ApplyAll | src/delegate.rs:58-86 | a callback's reentrant calls only move the counter up, never add or replace an entry below the counter's old value, and keep the freshness invariant |
| Delegates.Invoke | src/delegate.rs:110-121 | one loop turn: on StaySubscribed the same callback is back under the same id. Under the invariant, the id is registered afterwards exactly when the response is StaySubscribed. Older entries are never added or replaced |
| Delegates.Dispatch | src/delegate.rs:109-123 | the calls made are always a prefix of the pending ids, each with the broadcast value, and a completed pass calls all of them. The counter only grows, the invariant is kept, and no entry below the starting counter is added or replaced. A panic names the next pending id, which is absent from the registry the pass left behind |
| Delegates.Snapshot | src/delegate.rs:103-108 | the snapshot is strictly ascending and holds exactly the registered ids |
| Snapshots.AscendIsTheEnumeration | src/delegate.rs:103-108 | any strictly ascending sequence of the key set equals the snapshot, so the snapshot is determined by the keys alone |
| Delegates.Broadcast | src/delegate.rs:102-124 | the calls are a prefix of the ascending snapshot, each with the value. A completed broadcast calls each id registered at its start exactly once, in strictly ascending order. Whether it completes or panics, the counter only grows and no entry below its starting value is added or replaced. A panic names such an id, gone from the map by then |
| DelegateLaws.MidPassSubscriptionsNotInvoked | src/delegate.rs:103-109 | an id issued at or after the counter's value when the pass starts is never called by that pass, whether it completes or panics |
| DelegateLaws.DispatchWithoutUnsubscribes | src/delegate.rs:109-123 | over pending ids whose callbacks never unsubscribe, the pass completes. Afterwards the ids are: those not pending, the pending ones that answered StaySubscribed, and every id issued during the pass. Old callbacks are unchanged, and without reentrant calls the counter does not move |
| DelegateLaws.BroadcastWithoutUnsubscribes | src/delegate.rs:102-124 | a broadcast whose callbacks never unsubscribe completes and calls the snapshot. Afterwards the ids are the stayers plus the ids subscribed during the pass, which are present though they were not called |
| DelegateLaws.SelfUnsubscribeIsNoop | src/delegate.rs:83 | a callback that unsubscribes its own subscription while it runs ends up as if it had not, because its entry is out of the map at that moment |
| DelegateLaws.StayingBroadcastChangesNothing | src/delegate.rs:115-121 | when every callback stays and makes no reentrant calls, a broadcast calls the snapshot and leaves the delegate and the counter unchanged |
| Delegates.Notify | src/delegate.rs:140-142 | `notify` is a broadcast of the unit value. It calls a prefix of the snapshot: all of it, or up to a registered id on which it panics. No entry below the starting counter is added or replaced |
| DelegateLaws.RepeatedNotify | src/delegate.rs:140-142 | `k` notifications of staying, non-reentrant callbacks call the snapshot `k` times over and leave the registry unchanged |
| DelegateLaws.EarlierPeerUnsubscribeCompletes | src/delegate.rs:83 | with two subscribers where the second unsubscribes the first, the pass as written completes, calls both, and only the second stays registered: unsubscribing a peer from a callback does have an effect |
| DelegateLaws.PeerUnsubscribePanics | src/delegate.rs:110-114 | with two subscribers where the first unsubscribes the second, the pass as written panics on the second id. By then the first has been called and is the only entry left |
| Delegates.DispatchSkipping | src/delegate.rs:109-123 | the corrected pass calls only pending ids, each with the value. The counter only grows, the freshness invariant is kept, and no entry below the starting counter is added or replaced |
| DelegateLaws.SkippedOnlyIfRemoved | src/delegate.rs:109-123 | over ascending pending ids issued before the counter, a pending id the corrected pass does not call is absent from the map afterwards. So it skips only ids that an earlier callback removed |
| DelegateLaws.StaysAbsent | src/delegate.rs:58-86 | an id issued earlier and absent from the map stays absent for the rest of a corrected pass: no callback can bring it back |
| DelegateLaws.DispatchCompletesIffNothingSkipped | src/delegate.rs:110-114 | over ascending pending ids, the pass as written completes exactly when the corrected pass calls every pending id. It panics exactly when an earlier callback removed a later snapshot id |
| DelegateLaws.BroadcastCompletesIffNothingSkipped | src/delegate.rs:102-124 | the same equivalence for whole broadcasts: `broadcast` panics exactly when the corrected broadcast leaves part of the snapshot uncalled |
| Delegates.DispatchSkippingAscending | src/delegate.rs:109 | over ascending pending ids, the corrected pass calls in strictly ascending order, hence each at most once |
| Delegates.BroadcastSkipping | src/delegate.rs:102-124 | the corrected broadcast always completes and calls registered ids at most once each, in ascending order, with the value. The counter only grows and no entry below its starting value is added or replaced |
| DelegateLaws.BroadcastSkippingCallsAllButRemoved | src/delegate.rs:102-124 | every id registered when the corrected broadcast starts is called, unless it was removed during the pass, in which case it is not registered afterwards |
| DelegateLaws.PeerUnsubscribeSkipped | src/delegate.rs:110-114 | on the same two subscribers, the corrected pass calls only the first. Afterwards only the first is registered |
| DelegateLaws.SkippingAgreesWithDispatch | src/delegate.rs:109-123 | wherever the pass as written completes, the corrected pass gives the same registry and calls |
| DelegateLaws.SkippingAgreesWithBroadcast | src/delegate.rs:102-124 | the same agreement for whole broadcasts |
| DelegateLaws.TwoSubscriptions | src/delegate.rs:58-65 | two subscribes from counter `n` register ids `n` and `n + 1` and leave the counter at `n + 2` |
| Observables.New | src/observable.rs:37-44 | a new observable holds the given value and has no subscriptions |
| Observables.Default | src/observable.rs:128-135 | the default observable is `new` of the value type's default |
| Observables.Subscribe | src/observable.rs:60-62 | subscribing has exactly the effect of subscribing on the inner delegate, and the value is untouched |
| Observables.Unsubscribe | src/observable.rs:77-79 | unsubscribing has exactly the effect of unsubscribing on the inner delegate, and is a no-op for an absent id |
| Observables.DelegateOf | src/observable.rs:101-103 | `delegate()` returns the inner delegate unchanged: paired with the value, it is the whole observable |
| Observables.Value | src/observable.rs:137-141 | `Deref` returns the stored value and changes nothing: paired with the delegate, it is the whole observable, and it is `New` of that value exactly when nobody is subscribed |
| Observables.SubscribeThroughDelegate | src/observable.rs:101-103 | subscribing or unsubscribing through `delegate()` matches doing it through the observable |
| Observables.ResponseOnlyDispatch | src/delegate.rs:102-124 | with callbacks that only respond, the pass as written completes and calls the snapshot once each. Exactly the callbacks answering CancelSubscription are removed, and the rest keep their callbacks |
| Observables.ResponseOnlyBroadcast | src/delegate.rs:102-124 | the same holds of the corrected pass that `mutate` uses |
| Observables.Mutate | src/observable.rs:119-125 | the value becomes `mutation(old)`. Every callback registered beforehand is called once, in ascending id order, with the new value. Afterwards exactly those that answered StaySubscribed remain |
| Observables.MutateWithoutChangeStillBroadcasts | src/observable.rs:105-107 | an identity mutation still calls every subscriber once: there is no dirty check |
| Observables.ReadAfterMutate | src/observable.rs:137-141 | reading after `mutate` gives the mutated value, and reading a new observable gives its initial value |
| Observables.UnsubscribedNotNotified | src/observable.rs:77-79 | after unsubscribing, a `mutate` neither calls that id nor registers it |
| Scenarios.ExecutesCallbacks | tests/test_delegate.rs:6-20 | one staying subscription notified three times is called three times |
| Scenarios.DoesNotExecuteUnsubscribed | tests/test_delegate.rs:22-35 | after unsubscribing, the delegate is empty and a notification calls nothing |
| Scenarios.CannotUnsubscribeForeignSubscription | tests/test_delegate.rs:37-52 | unsubscribing another delegate's subscription leaves the first delegate's callback in place, and it is still called |
| Scenarios.SelfUnsubscribingNotify | tests/test_delegate.rs:54-78 | a callback that unsubscribes itself and stays is called, and the registry afterwards is as before |
| Scenarios.UnsubscribingWithinCallbackIsNoop | tests/test_delegate.rs:54-78 | two notifications of the self-unsubscribing callback give two calls |
| Scenarios.CanUnsubscribeUsingResponse | tests/test_delegate.rs:80-93 | a callback answering CancelSubscription is called once over two notifications |
| Scenarios.ObservableBroadcastsNewValues | tests/test_observable.rs:3-15 | after `mutate` sets 42, the single subscriber is called once with 42 |
| Scenarios.ObservableNoLongerNotifiesAfterUnsubscribe | tests/test_observable.rs:17-31 | over two mutations with an unsubscribe in between, the callback is called once, and the values are 42 then 43 |

## Left out

- The id counter is an unbounded natural. The source's `AtomicU64` wraps after 2^64 subscriptions, which is not modelled. The atomic `fetch_add` and `Send` bounds are not modelled either: the model is sequential.
- Nested broadcasts from inside a callback are not modelled. A callback's reentrant actions are subscribe and unsubscribe on the same delegate, one level deep.
- `RefCell` borrow panics, lifetimes and the boxed `FnMut` closures are not modelled. Closures are tokens whose behaviour is given by an oracle, and the state they capture is not modelled.
- The `Borrow<U>` conversion in `broadcast` is not modelled: the value is a plain `T`.
- The `Debug` impls in src/delegate.rs:145-157 and src/observable.rs:24 are not modelled. src/lib.rs (documentation and re-exports) is not modelled.
- `Delegate`'s derived `Default` is not modelled separately. It builds the same empty map as `Delegates.New`.
- `Observables.Mutate`: its callbacks are response-only, because `mutate` holds the observable exclusively. The mutation is a pure `T -> T` rather than an in-place `FnOnce(&mut T)`.
- `Observables.Mutate`: the counter value it passes to the broadcast is `Observables.Above` of the delegate. Response-only callbacks never draw ids, so the value is unobservable.
- `Scenarios.ObservableNoLongerNotifiesAfterUnsubscribe`: the test passes `&s` to `Observable::unsubscribe`, whose signature takes the subscription by value. The model passes the subscription.
- The call counts the tests keep in captured variables are modelled as the list of calls a pass makes.

## Findings

| source | as written | input that shows it | evidently intended | confidence | as-written member | corrected member |
|---|---|---|---|---|---|---|
| src/delegate.rs:110-114 | `remove_entry(&subscription).unwrap()` panics when a snapshot id was removed earlier in the same pass | two subscribers, where the callback with the lower id unsubscribes the higher one and stays; then `notify()` | the removed id is skipped and the pass completes. `unsubscribe` is documented as never failing (src/delegate.rs:81-83), so aborting the broadcast reads as unintended. Skipping removes the peer, as the code already does for a peer with a lower id; the literal reading of line 83 would instead keep it, and either way there is no panic | not executed | DelegateLaws.PeerUnsubscribePanics | DelegateLaws.PeerUnsubscribeSkipped |

=== FILE: delegate_laws.dfy ===
/**
 Properties of the delegate that relate several calls: what a broadcast pass
 leaves registered, how it treats subscriptions made while it runs, why a
 callback cannot unsubscribe itself, repeated notification, and where the
 pass as written panics.
 */
module DelegateLaws {
  import opened Snapshots
  import opened Delegates

  /** A callback's actions only subscribe; none of them unsubscribes. */
  predicate SubscribesOnly<C>(actions: seq<Action<C>>) {
    forall i :: 0 <= i < |actions| ==> actions[i].DoSubscribe?
  }

  /** Whether the callback registered under `id` answers StaySubscribed to `value`. */
  predicate Stays<C, T>(callback: (C, T) -> Reaction<C>, value: T, d: Delegate<C>, id: Id)
    requires id in d.subscriptions
  {
    callback(d.subscriptions[id], value).response == StaySubscribed
  }

  lemma {:induction false} ApplyAllConcat<C>(r: Registry<C>, xs: seq<Action<C>>, ys: seq<Action<C>>)
    ensures ApplyAll(r, xs + ys) == ApplyAll(ApplyAll(r, xs), ys)
    decreases |xs|
  {
    if xs == [] {
      assert xs + ys == ys;
    } else {
      assert (xs + ys)[0] == xs[0];
      assert (xs + ys)[1..] == xs[1..] + ys;
      ApplyAllConcat(Apply(r, xs[0]), xs[1..], ys);
    }
  }

  /**
   Subscribe-only actions keep every existing entry and add exactly the ids
   the counter hands out meanwhile.
   */
  lemma {:induction false} ApplySubscribes<C>(r: Registry<C>, actions: seq<Action<C>>)
    requires SubscribesOnly(actions)
    requires IssuedBefore(r.delegate, r.nextId)
    ensures var r' := ApplyAll(r, actions);
            forall k :: k in r'.delegate.subscriptions <==> k in r.delegate.subscriptions || r.nextId <= k < r'.nextId
    ensures var r' := ApplyAll(r, actions);
            forall k :: k in r.delegate.subscriptions ==> r'.delegate.subscriptions[k] == r.delegate.subscriptions[k]
    ensures actions == [] ==> ApplyAll(r, actions) == r
    decreases |actions|
  {
    if actions != [] {
      var r1 := Apply(r, actions[0]);
      assert actions[0].DoSubscribe?;
      assert r1.nextId == r.nextId + 1;
      assert SubscribesOnly(actions[1..]) by {
        forall i | 0 <= i < |actions[1..]|
          ensures actions[1..][i].DoSubscribe?
        {
          assert actions[1..][i] == actions[i + 1];
        }
      }
      ApplySubscribes(r1, actions[1..]);
    }
  }

  /**
   One turn of the loop whose callback only subscribes: the running id stays
   exactly when the callback says so, all other entries stay, and the ids
   handed out meanwhile are added.
   */
  lemma InvokeSubscribes<C>(r: Registry<C>, id: Id, reaction: Reaction<C>)
    requires id in r.delegate.subscriptions
    requires SubscribesOnly(reaction.actions)
    requires IssuedBefore(r.delegate, r.nextId)
    ensures var r1 := Invoke(r, id, reaction);
            forall k :: k in r1.delegate.subscriptions <==>
              (k in r.delegate.subscriptions && (k != id || reaction.response == StaySubscribed))
              || r.nextId <= k < r1.nextId
    ensures reaction.actions == [] ==> Invoke(r, id, reaction).nextId == r.nextId
  {
    var running := Registry(Unsubscribe(r.delegate, Subscription(id)), r.nextId);
    ApplySubscribes(running, reaction.actions);
  }

  /**
   The first turn of a pass whose callbacks never unsubscribe: what it does
   to the registry, and that the rest of the pass still meets the same
   conditions.
   */
  lemma FirstTurnWithoutUnsubscribes<C, T>(
    callback: (C, T) -> Reaction<C>, value: T, pending: seq<Id>, r: Registry<C>)
    requires Ascending(pending) && |pending| > 0
    requires forall id :: id in pending ==> id in r.delegate.subscriptions
    requires forall id :: id in pending ==> SubscribesOnly(callback(r.delegate.subscriptions[id], value).actions)
    requires IssuedBefore(r.delegate, r.nextId)
    ensures var r1 := Invoke(r, pending[0], callback(r.delegate.subscriptions[pending[0]], value));
            && r.nextId <= r1.nextId
            && IssuedBefore(r1.delegate, r1.nextId)
            && (forall j :: j in r1.delegate.subscriptions <==>
                  (j in r.delegate.subscriptions && (j != pending[0] || Stays(callback, value, r.delegate, pending[0])))
                  || r.nextId <= j < r1.nextId)
            && (forall j :: j in r.delegate.subscriptions && j in r1.delegate.subscriptions ==>
                  r1.delegate.subscriptions[j] == r.delegate.subscriptions[j])
            && (forall k :: k in pending[1..] ==>
                  k in r1.delegate.subscriptions && r1.delegate.subscriptions[k] == r.delegate.subscriptions[k])
    ensures var r1 := Invoke(r, pending[0], callback(r.delegate.subscriptions[pending[0]], value));
            (forall k :: k in pending ==> callback(r.delegate.subscriptions[k], value).actions == []) ==>
              r1.nextId == r.nextId
  {
    var id := pending[0];
    var reaction := callback(r.delegate.subscriptions[id], value);
    InvokeSubscribes(r, id, reaction);
    forall k | k in pending[1..]
      ensures k in pending && k != id
    {
      TailElements(pending, k);
    }
    assert id in pending;
  }

  /** The bookkeeping of one loop turn, with the rest of the pass abstracted away. */
  lemma KeysAfterStep<C, T>(
    callback: (C, T) -> Reaction<C>, value: T, pending: seq<Id>, r: Registry<C>, r1: Registry<C>, fin: Registry<C>)
    requires Ascending(pending) && |pending| > 0
    requires forall j :: j in pending ==> j in r.delegate.subscriptions
    requires IssuedBefore(r.delegate, r.nextId)
    requires r.nextId <= r1.nextId <= fin.nextId
    requires forall j :: j in r1.delegate.subscriptions <==>
               (j in r.delegate.subscriptions && (j != pending[0] || Stays(callback, value, r.delegate, pending[0])))
               || r.nextId <= j < r1.nextId
    requires forall j :: j in r.delegate.subscriptions && j in r1.delegate.subscriptions ==>
               r1.delegate.subscriptions[j] == r.delegate.subscriptions[j]
    requires forall j :: j in r1.delegate.subscriptions && j in fin.delegate.subscriptions ==>
               fin.delegate.subscriptions[j] == r1.delegate.subscriptions[j]
    requires forall j :: j in fin.delegate.subscriptions <==>
               (j in r1.delegate.subscriptions && (j !in pending[1..] || Stays(callback, value, r1.delegate, j)))
               || r1.nextId <= j < fin.nextId
    ensures forall k :: k in fin.delegate.subscriptions <==>
              (k in r.delegate.subscriptions && (k !in pending || Stays(callback, value, r.delegate, k)))
              || r.nextId <= k < fin.nextId
    ensures forall k :: k in r.delegate.subscriptions && k in fin.delegate.subscriptions ==>
              fin.delegate.subscriptions[k] == r.delegate.subscriptions[k]
  {
    forall k: Id
      ensures k in fin.delegate.subscriptions <==>
              (k in r.delegate.subscriptions && (k !in pending || Stays(callback, value, r.delegate, k)))
              || r.nextId <= k < fin.nextId
    {
      TailElements(pending, k);
      if k == pending[0] {
        assert k !in pending[1..];
      } else if k in r.delegate.subscriptions {
        assert k < r.nextId;
        assert k in r1.delegate.subscriptions;
        assert Stays(callback, value, r1.delegate, k) == Stays(callback, value, r.delegate, k);
      } else {
        assert k !in pending;
      }
    }
    forall k | k in r.delegate.subscriptions && k in fin.delegate.subscriptions
      ensures fin.delegate.subscriptions[k] == r.delegate.subscriptions[k]
    {
      assert k < r1.nextId;
    }
  }

  /**
   A pass over pending ids whose callbacks never unsubscribe completes; the
   ids registered afterwards are the ones not pending, the pending ones that
   answered StaySubscribed, and every id handed out during the pass; the old
   callbacks are kept under their ids.
   */
  lemma {:induction false} DispatchWithoutUnsubscribes<C, T>(
    callback: (C, T) -> Reaction<C>, value: T, pending: seq<Id>, r: Registry<C>)
    requires Ascending(pending)
    requires forall id :: id in pending ==> id in r.delegate.subscriptions
    requires forall id :: id in pending ==> SubscribesOnly(callback(r.delegate.subscriptions[id], value).actions)
    requires IssuedBefore(r.delegate, r.nextId)
    ensures Dispatch(callback, value, pending, r).Completed?
    ensures var fin := Dispatch(callback, value, pending, r).registry;
            forall k :: k in fin.delegate.subscriptions <==>
              (k in r.delegate.subscriptions && (k !in pending || Stays(callback, value, r.delegate, k)))
              || r.nextId <= k < fin.nextId
    ensures var fin := Dispatch(callback, value, pending, r).registry;
            forall k :: k in r.delegate.subscriptions && k in fin.delegate.subscriptions ==>
              fin.delegate.subscriptions[k] == r.delegate.subscriptions[k]
    ensures (forall id :: id in pending ==> callback(r.delegate.subscriptions[id], value).actions == []) ==>
              Dispatch(callback, value, pending, r).registry.nextId == r.nextId
    decreases |pending|
  {
    if pending != [] {
      var id := pending[0];
      var rest := pending[1..];
      var r1 := Invoke(r, id, callback(r.delegate.subscriptions[id], value));
      FirstTurnWithoutUnsubscribes(callback, value, pending, r);
      DispatchWithoutUnsubscribes(callback, value, rest, r1);
      var o := Dispatch(callback, value, rest, r1);
      assert Dispatch(callback, value, pending, r) == Completed(o.registry, [Call(id, value)] + o.calls);
      KeysAfterStep(callback, value, pending, r, r1, o.registry);
      assert (forall k :: k in pending ==> callback(r.delegate.subscriptions[k], value).actions == []) ==>
               forall k :: k in rest ==> callback(r1.delegate.subscriptions[k], value).actions == [] by {
        forall k | k in rest
          ensures k in pending
        {
          TailElements(pending, k);
        }
      }
    }
  }

  /**
   `broadcast` on a delegate whose callbacks never unsubscribe: it completes,
   runs exactly the ids registered at its start in ascending order, and
   afterwards the registered ids are those that answered StaySubscribed plus
   those subscribed during the pass. Without any reentrant action the
   counter does not move and exactly the cancelling callbacks are gone.
   */
  lemma BroadcastWithoutUnsubscribes<C, T>(callback: (C, T) -> Reaction<C>, value: T, d: Delegate<C>, nextId: Id)
    requires IssuedBefore(d, nextId)
    requires forall id :: id in d.subscriptions ==> SubscribesOnly(callback(d.subscriptions[id], value).actions)
    ensures Broadcast(callback, value, d, nextId).Completed?
    ensures Ids(Broadcast(callback, value, d, nextId).calls) == Snapshot(d)
    ensures var fin := Broadcast(callback, value, d, nextId).registry;
            forall k :: k in fin.delegate.subscriptions <==>
              (k in d.subscriptions && Stays(callback, value, d, k)) || nextId <= k < fin.nextId
    ensures var fin := Broadcast(callback, value, d, nextId).registry;
            forall k :: k in d.subscriptions && Stays(callback, value, d, k) ==>
              fin.delegate.subscriptions[k] == d.subscriptions[k]
    ensures (forall id :: id in d.subscriptions ==> callback(d.subscriptions[id], value).actions == []) ==>
              Broadcast(callback, value, d, nextId).registry.nextId == nextId
  {
    var pending := Snapshot(d);
    var r := Registry(d, nextId);
    DispatchWithoutUnsubscribes(callback, value, pending, r);
    var fin := Dispatch(callback, value, pending, r).registry;
    assert Broadcast(callback, value, d, nextId) == Dispatch(callback, value, pending, r);
    forall k
      ensures k in fin.delegate.subscriptions <==>
              (k in d.subscriptions && Stays(callback, value, d, k)) || nextId <= k < fin.nextId
    {
      if k in d.subscriptions {
        assert k in pending;
      }
    }
  }

  /**
   A subscription made by a callback during a pass is not run by that pass:
   only ids registered at its start are, and all of those were issued
   before the counter's value at the start. This holds of a pass that
   panics as well.
   */
  lemma MidPassSubscriptionsNotInvoked<C, T>(
    callback: (C, T) -> Reaction<C>, value: T, d: Delegate<C>, nextId: Id, id: Id)
    requires IssuedBefore(d, nextId)
    requires nextId <= id
    ensures id !in Ids(Broadcast(callback, value, d, nextId).calls)
  {
    var o := Broadcast(callback, value, d, nextId);
    var s := Snapshot(d);
    forall x | x in Ids(o.calls)
      ensures x < nextId
    {
      assert x in s[..|o.calls|];
      assert x in s;
    }
  }

  /**
   Unsubscribing the running callback's own subscription from inside it does
   nothing: its entry is out of the map while it runs, and no action of a
   callback can bring back an id issued earlier. Whether it stays is decided
   by its response alone (see `Invoke`).
   */
  lemma SelfUnsubscribeIsNoop<C>(r: Registry<C>, id: Id, response: Response, xs: seq<Action<C>>, ys: seq<Action<C>>)
    requires id in r.delegate.subscriptions
    requires IssuedBefore(r.delegate, r.nextId)
    ensures Invoke(r, id, Reaction(response, xs + [DoUnsubscribe(Subscription(id))] + ys))
            == Invoke(r, id, Reaction(response, xs + ys))
  {
    var running := Registry(Unsubscribe(r.delegate, Subscription(id)), r.nextId);
    var u := DoUnsubscribe(Subscription(id));
    ApplyAllConcat(running, xs + [u], ys);
    ApplyAllConcat(running, xs, [u]);
    ApplyAllConcat(running, xs, ys);
    var a := ApplyAll(running, xs);
    assert id !in a.delegate.subscriptions;
    assert ApplyAll(a, [u]) == a;
  }

  /**
   `unsubscribe` undoes `subscribe`: when every key was issued before the
   counter's value, unsubscribing the fresh subscription gives back the
   delegate as it was; only the counter has moved on.
   */
  lemma SubscribeThenUnsubscribe<C>(d: Delegate<C>, nextId: Id, callback: C)
    requires IssuedBefore(d, nextId)
    ensures var s := Subscribe(d, nextId, callback);
            Unsubscribe(s.registry.delegate, s.subscription) == d
  {
    var s := Subscribe(d, nextId, callback);
    assert Unsubscribe(s.registry.delegate, s.subscription).subscriptions == d.subscriptions;
  }

  /** Unsubscribing a second time with the same subscription changes nothing. */
  lemma UnsubscribeTwiceIsNoop<C>(d: Delegate<C>, s: Subscription)
    ensures Unsubscribe(Unsubscribe(d, s), s) == Unsubscribe(d, s)
    ensures s.id !in Unsubscribe(d, s).subscriptions
  {
  }

  /**
   A broadcast whose callbacks all stay subscribed and do nothing reentrant
   runs each registered callback once and leaves delegate and counter as
   they were.
   */
  lemma StayingBroadcastChangesNothing<C, T>(callback: (C, T) -> Reaction<C>, value: T, d: Delegate<C>, nextId: Id)
    requires IssuedBefore(d, nextId)
    requires forall id :: id in d.subscriptions ==> callback(d.subscriptions[id], value) == Reaction(StaySubscribed, [])
    ensures Broadcast(callback, value, d, nextId).Completed?
    ensures Broadcast(callback, value, d, nextId).registry == Registry(d, nextId)
    ensures Ids(Broadcast(callback, value, d, nextId).calls) == Snapshot(d)
  {
    BroadcastWithoutUnsubscribes(callback, value, d, nextId);
    var o := Broadcast(callback, value, d, nextId);
    assert o.registry.nextId == nextId;
    assert o.registry.delegate.subscriptions.Keys == d.subscriptions.Keys;
    assert o.registry.delegate.subscriptions == d.subscriptions;
  }

  /**
   The value of `notify()` called `k` times in a row, the calls of all passes
   in order; a panic ends the sequence.
   */
  function NotifyTimes<C>(callback: (C, ()) -> Reaction<C>, d: Delegate<C>, nextId: Id, k: nat): Outcome<C, ()>
    decreases k
  {
    if k == 0 then Completed(Registry(d, nextId), [])
    else
      match Notify(callback, d, nextId)
      case Panicked(r, calls, missing) => Panicked(r, calls, missing)
      case Completed(r, calls) =>
        match NotifyTimes(callback, r.delegate, r.nextId, k - 1)
        case Panicked(r2, calls2, missing) => Panicked(r2, calls + calls2, missing)
        case Completed(r2, calls2) => Completed(r2, calls + calls2)
  }

  function Repeat(s: seq<Id>, k: nat): seq<Id>
    decreases k
  {
    if k == 0 then [] else s + Repeat(s, k - 1)
  }

  lemma IdsConcat<T>(xs: seq<Call<T>>, ys: seq<Call<T>>)
    ensures Ids(xs + ys) == Ids(xs) + Ids(ys)
  {
    var joined := Ids(xs + ys);
    var parts := Ids(xs) + Ids(ys);
    forall i | 0 <= i < |joined|
      ensures joined[i] == parts[i]
    {
      if i < |xs| {
        assert (xs + ys)[i] == xs[i];
      } else {
        assert (xs + ys)[i] == ys[i - |xs|];
      }
    }
  }

  /**
   With every callback staying subscribed and doing nothing reentrant, `k`
   notifications run every registered callback `k` times, pass after pass
   in ascending id order, and leave the delegate and the counter as they
   were.
   */
  lemma {:induction false} RepeatedNotify<C>(callback: (C, ()) -> Reaction<C>, d: Delegate<C>, nextId: Id, k: nat)
    requires IssuedBefore(d, nextId)
    requires forall id :: id in d.subscriptions ==> callback(d.subscriptions[id], ()) == Reaction(StaySubscribed, [])
    ensures NotifyTimes(callback, d, nextId, k).Completed?
    ensures NotifyTimes(callback, d, nextId, k).registry == Registry(d, nextId)
    ensures Ids(NotifyTimes(callback, d, nextId, k).calls) == Repeat(Snapshot(d), k)
    decreases k
  {
    if k > 0 {
      StayingBroadcastChangesNothing(callback, (), d, nextId);
      var o := Notify(callback, d, nextId);
      RepeatedNotify(callback, d, nextId, k - 1);
      IdsConcat(o.calls, NotifyTimes(callback, d, nextId, k - 1).calls);
    }
  }

  /** A delegate holding a single subscription snapshots to just that id. */
  lemma SingletonSnapshot<C>(id: Id, c: C)
    ensures Snapshot(Delegate(map[id := c])) == [id]
  {
    AscendIsTheEnumeration(map[id := c].Keys, [id]);
  }

  /** The first pass of a delegate with two subscriptions runs the lower id first. */
  lemma PairSnapshot<C>(a: Id, b: Id, ca: C, cb: C)
    requires a < b
    ensures Snapshot(Delegate(map[a := ca, b := cb])) == [a, b]
  {
    AscendIsTheEnumeration(map[a := ca, b := cb].Keys, [a, b]);
  }

  /**
   A callback token oracle for two subscribers: the callback with token 0
   unsubscribes `victim`, the one with token 1 does nothing; both stay.
   */
  function PeerCanceller(victim: Id): (nat, ()) -> Reaction<nat> {
    (c: nat, v: ()) =>
      if c == 0 then Reaction(StaySubscribed, [DoUnsubscribe(Subscription(victim))])
      else Reaction(StaySubscribed, [])
  }

  /** Subscribing tokens 0 and 1 from counter `nextId` registers ids `nextId` and `nextId + 1`. */
  lemma TwoSubscriptions(nextId: Id)
    ensures var first := Subscribe(New<nat>(), nextId, 0);
            var second := Subscribe(first.registry.delegate, first.registry.nextId, 1);
            second.registry == Registry(Delegate(map[nextId := 0, nextId + 1 := 1]), nextId + 2)
  {
  }

  /**
   The pass as written panics when a callback unsubscribes a subscription
   that comes later in the same snapshot: the callback registered first
   cancels the second one, and `remove_entry(..).unwrap()` then finds
   nothing. By then the first callback has run and is back in the map.
   */
  lemma PeerUnsubscribePanics(nextId: Id)
    ensures var o := Notify(PeerCanceller(nextId + 1), Delegate(map[nextId := 0, nextId + 1 := 1]), nextId + 2);
            && o.Panicked? && o.missing == nextId + 1
            && o.calls == [Call(nextId, ())]
            && o.registry == Registry(Delegate(map[nextId := 0]), nextId + 2)
  {
    PairSnapshot(nextId, nextId + 1, 0, 1);
    PeerPanickingPass(nextId);
  }

  /** The pass as written over the snapshot `[nextId, nextId + 1]`, turn by turn. */
  lemma PeerPanickingPass(nextId: Id)
    ensures var r1 := Registry(Delegate(map[nextId := 0]), nextId + 2);
            Dispatch(PeerCanceller(nextId + 1), (), [nextId, nextId + 1],
                     Registry(Delegate(map[nextId := 0, nextId + 1 := 1]), nextId + 2))
            == Panicked(r1, [Call(nextId, ())], nextId + 1)
  {
    PeerCancellerFirstTurn(nextId);
    PeerPanickingSecondTurn(nextId);
    assert [nextId, nextId + 1][1..] == [nextId + 1];
  }

  /** The second turn finds its id gone, and `unwrap` panics. */
  lemma PeerPanickingSecondTurn(nextId: Id)
    ensures var r1 := Registry(Delegate(map[nextId := 0]), nextId + 2);
            Dispatch(PeerCanceller(nextId + 1), (), [nextId + 1], r1) == Panicked(r1, [], nextId + 1)
  {
  }

  /**
   The corrected pass on the same delegate skips the cancelled id: the first
   callback runs once and stays, the second is gone and never runs.
   */
  lemma PeerUnsubscribeSkipped(nextId: Id)
    ensures var p := BroadcastSkipping(PeerCanceller(nextId + 1), (), Delegate(map[nextId := 0, nextId + 1 := 1]), nextId + 2);
            Ids(p.calls) == [nextId] && p.registry.delegate.subscriptions == map[nextId := 0]
  {
    PairSnapshot(nextId, nextId + 1, 0, 1);
    PeerSkippedPass(nextId);
  }

  /** The corrected pass over the snapshot `[nextId, nextId + 1]`, turn by turn. */
  lemma PeerSkippedPass(nextId: Id)
    ensures DispatchSkipping(PeerCanceller(nextId + 1), (), [nextId, nextId + 1],
                             Registry(Delegate(map[nextId := 0, nextId + 1 := 1]), nextId + 2))
            == Pass(Registry(Delegate(map[nextId := 0]), nextId + 2), [Call(nextId, ())])
  {
    var r1 := Registry(Delegate(map[nextId := 0]), nextId + 2);
    PeerCancellerFirstTurn(nextId);
    PeerSkippedSecondTurn(nextId);
    assert [nextId, nextId + 1][1..] == [nextId + 1];
  }

  /** The second turn finds its id gone and skips it. */
  lemma PeerSkippedSecondTurn(nextId: Id)
    ensures var r1 := Registry(Delegate(map[nextId := 0]), nextId + 2);
            DispatchSkipping(PeerCanceller(nextId + 1), (), [nextId + 1], r1) == Pass(r1, [])
  {
    assert [nextId + 1][1..] == [];
  }

  /** The first turn of the pass above: the first callback removes the second and stays. */
  lemma PeerCancellerFirstTurn(nextId: Id)
    ensures Invoke(Registry(Delegate(map[nextId := 0, nextId + 1 := 1]), nextId + 2), nextId, PeerCanceller(nextId + 1)(0, ()))
            == Registry(Delegate(map[nextId := 0]), nextId + 2)
  {
    var d := Delegate(map[nextId := 0, nextId + 1 := 1]);
    var reaction := PeerCanceller(nextId + 1)(0, ());
    assert reaction == Reaction(StaySubscribed, [DoUnsubscribe(Subscription(nextId + 1))]);
    var running := Registry(Unsubscribe(d, Subscription(nextId)), nextId + 2);
    assert running.delegate.subscriptions == map[nextId + 1 := 1];
    assert reaction.actions[1..] == [];
    var after := ApplyAll(running, reaction.actions);
    assert after == ApplyAll(Apply(running, reaction.actions[0]), reaction.actions[1..]);
    assert after.delegate.subscriptions == map[];
  }

  /**
   Unsubscribing an earlier peer from inside a callback is not a no-op: the
   peer registered first has already run, the later callback removes it for
   good, and the pass as written completes.
   */
  lemma EarlierPeerUnsubscribeCompletes(nextId: Id)
    ensures Notify(PeerCanceller(nextId), Delegate(map[nextId := 1, nextId + 1 := 0]), nextId + 2)
            == Completed(Registry(Delegate(map[nextId + 1 := 0]), nextId + 2), [Call(nextId, ()), Call(nextId + 1, ())])
  {
    PairSnapshot(nextId, nextId + 1, 1, 0);
    EarlierPeerPass(nextId);
  }

  /** The pass as written over the snapshot `[nextId, nextId + 1]`, turn by turn. */
  lemma EarlierPeerPass(nextId: Id)
    ensures Dispatch(PeerCanceller(nextId), (), [nextId, nextId + 1],
                     Registry(Delegate(map[nextId := 1, nextId + 1 := 0]), nextId + 2))
            == Completed(Registry(Delegate(map[nextId + 1 := 0]), nextId + 2), [Call(nextId, ()), Call(nextId + 1, ())])
  {
    var r := Registry(Delegate(map[nextId := 1, nextId + 1 := 0]), nextId + 2);
    var r2 := Registry(Delegate(map[nextId + 1 := 0]), nextId + 2);
    EarlierPeerFirstTurn(nextId);
    EarlierPeerSecondTurn(nextId);
    assert [nextId + 1][1..] == [];
    assert Dispatch(PeerCanceller(nextId), (), [nextId + 1], r) == Completed(r2, [Call(nextId + 1, ())]);
    assert [nextId, nextId + 1][1..] == [nextId + 1];
  }

  /** The first callback does nothing and stays: the registry is as before. */
  lemma EarlierPeerFirstTurn(nextId: Id)
    ensures var r := Registry(Delegate(map[nextId := 1, nextId + 1 := 0]), nextId + 2);
            Invoke(r, nextId, PeerCanceller(nextId)(1, ())) == r
  {
  }

  /** The second callback removes the first and stays. */
  lemma EarlierPeerSecondTurn(nextId: Id)
    ensures Invoke(Registry(Delegate(map[nextId := 1, nextId + 1 := 0]), nextId + 2), nextId + 1, PeerCanceller(nextId)(0, ()))
            == Registry(Delegate(map[nextId + 1 := 0]), nextId + 2)
  {
    var d := Delegate(map[nextId := 1, nextId + 1 := 0]);
    var reaction := PeerCanceller(nextId)(0, ());
    assert reaction == Reaction(StaySubscribed, [DoUnsubscribe(Subscription(nextId))]);
    var running := Registry(Unsubscribe(d, Subscription(nextId + 1)), nextId + 2);
    assert running.delegate.subscriptions == map[nextId := 1];
    assert reaction.actions[1..] == [];
    var after := ApplyAll(running, reaction.actions);
    assert after == ApplyAll(Apply(running, reaction.actions[0]), reaction.actions[1..]);
    assert after.delegate.subscriptions == map[];
  }

  /**
   Wherever the pass as written completes, the corrected pass does exactly
   the same: the two differ only where the pass as written panics.
   */
  lemma {:induction false} SkippingAgreesWithDispatch<C, T>(
    callback: (C, T) -> Reaction<C>, value: T, pending: seq<Id>, r: Registry<C>)
    requires Dispatch(callback, value, pending, r).Completed?
    ensures DispatchSkipping(callback, value, pending, r)
            == Pass(Dispatch(callback, value, pending, r).registry, Dispatch(callback, value, pending, r).calls)
    decreases |pending|
  {
    if pending != [] {
      var id := pending[0];
      var r1 := Invoke(r, id, callback(r.delegate.subscriptions[id], value));
      SkippingAgreesWithDispatch(callback, value, pending[1..], r1);
    }
  }

  /** Corollary for whole passes: the corrected broadcast agrees wherever the pass as written completes. */
  lemma SkippingAgreesWithBroadcast<C, T>(callback: (C, T) -> Reaction<C>, value: T, d: Delegate<C>, nextId: Id)
    requires Broadcast(callback, value, d, nextId).Completed?
    ensures BroadcastSkipping(callback, value, d, nextId)
            == Pass(Broadcast(callback, value, d, nextId).registry, Broadcast(callback, value, d, nextId).calls)
  {
    SkippingAgreesWithDispatch(callback, value, Snapshot(d), Registry(d, nextId));
  }

  /**
   An id the counter issued earlier and that is gone from the map stays gone
   for the rest of a corrected pass: no callback can bring it back.
   */
  lemma {:induction false} StaysAbsent<C, T>(
    callback: (C, T) -> Reaction<C>, value: T, pending: seq<Id>, r: Registry<C>, k: Id)
    requires k < r.nextId && k !in r.delegate.subscriptions
    ensures k !in DispatchSkipping(callback, value, pending, r).registry.delegate.subscriptions
    decreases |pending|
  {
    if pending != [] {
      var id := pending[0];
      if id !in r.delegate.subscriptions {
        StaysAbsent(callback, value, pending[1..], r, k);
      } else {
        var r1 := Invoke(r, id, callback(r.delegate.subscriptions[id], value));
        StaysAbsent(callback, value, pending[1..], r1, k);
      }
    }
  }

  /**
   The corrected pass skips a pending id only when it had been removed: an
   id that is pending and not called is not registered afterwards. With
   `DispatchSkipping`'s own contract (it calls pending ids only), the
   pending ids it calls are exactly those still registered at their turn.
   */
  lemma {:induction false} SkippedOnlyIfRemoved<C, T>(
    callback: (C, T) -> Reaction<C>, value: T, pending: seq<Id>, r: Registry<C>)
    requires Ascending(pending)
    requires forall k :: k in pending ==> k < r.nextId
    ensures var p := DispatchSkipping(callback, value, pending, r);
            forall k :: k in pending && k !in Ids(p.calls) ==> k !in p.registry.delegate.subscriptions
    decreases |pending|
  {
    if pending != [] {
      var id := pending[0];
      var rest := pending[1..];
      var p := DispatchSkipping(callback, value, pending, r);
      forall k | k in rest
        ensures k in pending
      {
        TailElements(pending, k);
      }
      if id !in r.delegate.subscriptions {
        SkippedOnlyIfRemoved(callback, value, rest, r);
        assert id in pending;
        StaysAbsent(callback, value, rest, r, id);
        forall k | k in pending && k !in Ids(p.calls)
          ensures k !in p.registry.delegate.subscriptions
        {
          TailElements(pending, k);
        }
      } else {
        var r1 := Invoke(r, id, callback(r.delegate.subscriptions[id], value));
        SkippedOnlyIfRemoved(callback, value, rest, r1);
        var q := DispatchSkipping(callback, value, rest, r1);
        assert p.calls == [Call(id, value)] + q.calls;
        IdsCons(Call(id, value), q.calls);
        forall k | k in pending && k !in Ids(p.calls)
          ensures k !in p.registry.delegate.subscriptions
        {
          TailElements(pending, k);
        }
      }
    }
  }

  /**
   Corollary for a whole corrected broadcast: every id registered at its
   start is called, unless an earlier callback removed it, in which case it
   is not registered afterwards.
   */
  lemma BroadcastSkippingCallsAllButRemoved<C, T>(callback: (C, T) -> Reaction<C>, value: T, d: Delegate<C>, nextId: Id)
    requires IssuedBefore(d, nextId)
    ensures var p := BroadcastSkipping(callback, value, d, nextId);
            forall k :: k in d.subscriptions && k !in Ids(p.calls) ==> k !in p.registry.delegate.subscriptions
  {
    SkippedOnlyIfRemoved(callback, value, Snapshot(d), Registry(d, nextId));
  }

  /**
   The pass as written completes exactly when the corrected pass skips
   nothing: `remove_entry(..).unwrap()` panics precisely when an earlier
   callback of the same pass removed a later snapshot id.
   */
  lemma {:induction false} DispatchCompletesIffNothingSkipped<C, T>(
    callback: (C, T) -> Reaction<C>, value: T, pending: seq<Id>, r: Registry<C>)
    requires Ascending(pending)
    ensures Dispatch(callback, value, pending, r).Completed?
            <==> Ids(DispatchSkipping(callback, value, pending, r).calls) == pending
    decreases |pending|
  {
    if Dispatch(callback, value, pending, r).Completed? {
      SkippingAgreesWithDispatch(callback, value, pending, r);
    } else if pending != [] {
      var id := pending[0];
      var p := DispatchSkipping(callback, value, pending, r);
      if id !in r.delegate.subscriptions {
        assert id !in Ids(p.calls) by {
          forall k | k in Ids(p.calls)
            ensures k != id
          {
            TailElements(pending, k);
          }
        }
      } else {
        var r1 := Invoke(r, id, callback(r.delegate.subscriptions[id], value));
        DispatchCompletesIffNothingSkipped(callback, value, pending[1..], r1);
        var q := DispatchSkipping(callback, value, pending[1..], r1);
        IdsCons(Call(id, value), q.calls);
        assert Ids(p.calls) == [id] + Ids(q.calls);
        assert pending == [id] + pending[1..];
      }
    }
  }

  /** Corollary for whole broadcasts: the pass as written panics exactly when the corrected one skips an id. */
  lemma BroadcastCompletesIffNothingSkipped<C, T>(callback: (C, T) -> Reaction<C>, value: T, d: Delegate<C>, nextId: Id)
    ensures Broadcast(callback, value, d, nextId).Completed?
            <==> Ids(BroadcastSkipping(callback, value, d, nextId).calls) == Snapshot(d)
  {
    DispatchCompletesIffNothingSkipped(callback, value, Snapshot(d), Registry(d, nextId));
  }

  /**
   A call a client makes on one delegate, or `OpSubscribeElsewhere`: a
   subscribe on some other delegate, which only draws an id from the shared
   counter.
   */
  datatype Op<!C, !T> =
    | OpSubscribe(callback: C)
    | OpUnsubscribe(subscription: Subscription)
    | OpBroadcast(run: (C, T) -> Reaction<C>, value: T)
    | OpSubscribeElsewhere

  /** Where one operation leaves the registry, and whether it ended the run by panicking. */
  datatype Step<C> = Step(registry: Registry<C>, panicked: bool)

  function Perform<C, T>(r: Registry<C>, op: Op<C, T>): (s: Step<C>)
    ensures s.registry.nextId >= r.nextId
    ensures OnlyAddsFrom(r.delegate, r.nextId, s.registry.delegate)
    ensures IssuedBefore(r.delegate, r.nextId) ==> IssuedBefore(s.registry.delegate, s.registry.nextId)
  {
    match op
    case OpSubscribe(callback) => Step(Subscribe(r.delegate, r.nextId, callback).registry, false)
    case OpUnsubscribe(sub) => Step(Registry(Unsubscribe(r.delegate, sub), r.nextId), false)
    case OpBroadcast(run, value) =>
      var o := Broadcast(run, value, r.delegate, r.nextId);
      Step(o.registry, o.Panicked?)
    case OpSubscribeElsewhere => Step(Registry(r.delegate, r.nextId + 1), false)
  }

  /**
   Runs `ops` in order on `r`. A broadcast that panics ends the run with the
   registry as the panic left it.
   */
  function Run<C, T>(r: Registry<C>, ops: seq<Op<C, T>>): (r': Registry<C>)
    ensures r'.nextId >= r.nextId
    ensures OnlyAddsFrom(r.delegate, r.nextId, r'.delegate)
    ensures IssuedBefore(r.delegate, r.nextId) ==> IssuedBefore(r'.delegate, r'.nextId)
    decreases |ops|
  {
    if |ops| == 0 then r
    else
      var s := Perform(r, ops[0]);
      if s.panicked then s.registry else Run(s.registry, ops[1..])
  }
}

=== FILE: delegates.dfy ===
/**
 A delegate: an ordered registry of callbacks keyed by subscription id, and
 the broadcast pass that runs them.

 Callbacks are opaque tokens of type `C`. What a callback does when it runs is
 given by an oracle `(C, T) -> Reaction<C>`: the `Response` it returns, and
 the subscribe/unsubscribe calls it makes on the same delegate while it runs
 (its reentrant actions). Ids come from one process-wide counter, `nextId`,
 which every operation that may subscribe takes and returns, so that several
 delegates can share it.
 */
module Delegates {
  import opened Snapshots

  /** A subscription id, drawn from the process-wide counter. */
  type Id = nat

  /** A callback's verdict on whether it stays registered after it ran. */
  datatype Response = StaySubscribed | CancelSubscription

  /** The token returned by `Subscribe`, good only for `Unsubscribe`. */
  datatype Subscription = Subscription(id: Id)

  datatype Delegate<C> = Delegate(subscriptions: map<Id, C>)

  /** A call a running callback makes on its own delegate. */
  datatype Action<C> = DoSubscribe(callback: C) | DoUnsubscribe(subscription: Subscription)

  /** Everything a callback does in one invocation, in order. */
  datatype Reaction<C> = Reaction(response: Response, actions: seq<Action<C>>)

  /** A delegate together with the process-wide id counter. */
  datatype Registry<C> = Registry(delegate: Delegate<C>, nextId: Id)

  datatype Issued<C> = Issued(registry: Registry<C>, subscription: Subscription)

  /** One callback invocation of a broadcast pass: whose, and with which value. */
  datatype Call<T> = Call(id: Id, value: T)

  /**
   How a broadcast pass ends: it completes, or it panics on the `unwrap` of a
   snapshot id whose entry is gone from the map. A panic keeps what the pass
   had done up to then: the calls already made and the registry as the
   callbacks that ran left it.
   */
  datatype Outcome<C, T> =
    | Completed(registry: Registry<C>, calls: seq<Call<T>>)
    | Panicked(registry: Registry<C>, calls: seq<Call<T>>, missing: Id)

  /** Every key of `d` was issued by the counter before it reached `nextId`. */
  predicate IssuedBefore<C>(d: Delegate<C>, nextId: Id) {
    forall id :: id in d.subscriptions ==> id < nextId
  }

  /**
   `d'` came from `d` by removing entries and by adding entries at or above
   `bound`: every entry of `d'` below `bound` is an entry of `d`, with the
   same callback.
   */
  ghost predicate OnlyAddsFrom<C>(d: Delegate<C>, bound: Id, d': Delegate<C>) {
    forall k :: k in d'.subscriptions && k < bound ==>
      k in d.subscriptions && d'.subscriptions[k] == d.subscriptions[k]
  }

  function Ids<T>(calls: seq<Call<T>>): (ids: seq<Id>)
    ensures |ids| == |calls|
    ensures forall i :: 0 <= i < |calls| ==> ids[i] == calls[i].id
  {
    if calls == [] then [] else [calls[0].id] + Ids(calls[1..])
  }

  lemma IdsCons<T>(c: Call<T>, calls: seq<Call<T>>)
    ensures Ids([c] + calls) == [c.id] + Ids(calls)
  {
    assert ([c] + calls)[1..] == calls;
  }

  function New<C>(): (d: Delegate<C>)
    ensures |d.subscriptions| == 0
    ensures forall nextId: Id :: IssuedBefore(d, nextId)
  {
    Delegate(map[])
  }

  /**
   Registers `callback` under the counter's current value and advances the
   counter. When every existing key was issued earlier, the new id is fresh.
   */
  function Subscribe<C>(d: Delegate<C>, nextId: Id, callback: C): (r: Issued<C>)
    ensures r.subscription.id == nextId
    ensures r.registry.nextId == nextId + 1
    ensures r.registry.delegate.subscriptions.Keys == d.subscriptions.Keys + {nextId}
    ensures r.registry.delegate.subscriptions[nextId] == callback
    ensures forall id :: id in d.subscriptions && id != nextId ==>
              r.registry.delegate.subscriptions[id] == d.subscriptions[id]
    ensures IssuedBefore(d, nextId) ==>
              nextId !in d.subscriptions && IssuedBefore(r.registry.delegate, r.registry.nextId)
  {
    Issued(Registry(Delegate(d.subscriptions[nextId := callback]), nextId + 1), Subscription(nextId))
  }

  /** Removes the entry for `s` if there is one; otherwise nothing happens. */
  function Unsubscribe<C>(d: Delegate<C>, s: Subscription): (r: Delegate<C>)
    ensures r.subscriptions.Keys == d.subscriptions.Keys - {s.id}
    ensures forall id :: id in r.subscriptions ==> r.subscriptions[id] == d.subscriptions[id]
    ensures s.id !in d.subscriptions ==> r == d
  {
    var m := d.subscriptions - {s.id};
    assert s.id !in d.subscriptions ==> m == d.subscriptions;
    Delegate(m)
  }

  function Apply<C>(r: Registry<C>, a: Action<C>): Registry<C> {
    match a
    case DoSubscribe(callback) => Subscribe(r.delegate, r.nextId, callback).registry
    case DoUnsubscribe(s) => Registry(Unsubscribe(r.delegate, s), r.nextId)
  }

  /**
   Runs a callback's reentrant actions in order. They only advance the
   counter, add ids at or above its old value, and remove entries: an entry
   below the old counter value is never added or replaced.
   */
  function ApplyAll<C>(r: Registry<C>, actions: seq<Action<C>>): (r': Registry<C>)
    ensures r'.nextId >= r.nextId
    ensures OnlyAddsFrom(r.delegate, r.nextId, r'.delegate)
    ensures IssuedBefore(r.delegate, r.nextId) ==> IssuedBefore(r'.delegate, r'.nextId)
    decreases |actions|
  {
    if actions == [] then r else ApplyAll(Apply(r, actions[0]), actions[1..])
  }

  /**
   One turn of the broadcast loop once `remove_entry` found `id`: the entry
   is taken out of the map, the callback runs (its actions see the map
   without its own entry), and the same callback is put back under the same
   id exactly when it answered StaySubscribed.
   */
  function Invoke<C>(r: Registry<C>, id: Id, reaction: Reaction<C>): (r': Registry<C>)
    requires id in r.delegate.subscriptions
    ensures r'.nextId >= r.nextId
    ensures reaction.response == StaySubscribed ==>
              id in r'.delegate.subscriptions && r'.delegate.subscriptions[id] == r.delegate.subscriptions[id]
    ensures IssuedBefore(r.delegate, r.nextId) ==>
              (id in r'.delegate.subscriptions <==> reaction.response == StaySubscribed)
    ensures OnlyAddsFrom(r.delegate, r.nextId, r'.delegate)
    ensures IssuedBefore(r.delegate, r.nextId) ==> IssuedBefore(r'.delegate, r'.nextId)
  {
    var callback := r.delegate.subscriptions[id];
    var running := Registry(Unsubscribe(r.delegate, Subscription(id)), r.nextId);
    var after := ApplyAll(running, reaction.actions);
    match reaction.response
    case StaySubscribed =>
      Registry(Delegate(after.delegate.subscriptions[id := callback]), after.nextId)
    case CancelSubscription =>
      after
  }

  /**
   The broadcast loop over the ids still `pending` in the snapshot, as the
   source has it: an id whose entry has disappeared makes `unwrap` panic.
   */
  function Dispatch<C, T>(callback: (C, T) -> Reaction<C>, value: T, pending: seq<Id>, r: Registry<C>)
    : (o: Outcome<C, T>)
    ensures |o.calls| <= |pending| && Ids(o.calls) == pending[..|o.calls|]
    ensures o.Completed? ==> Ids(o.calls) == pending
    ensures forall i :: 0 <= i < |o.calls| ==> o.calls[i].value == value
    ensures o.registry.nextId >= r.nextId
    ensures OnlyAddsFrom(r.delegate, r.nextId, o.registry.delegate)
    ensures IssuedBefore(r.delegate, r.nextId) ==> IssuedBefore(o.registry.delegate, o.registry.nextId)
    ensures o.Panicked? ==>
              |o.calls| < |pending| && o.missing == pending[|o.calls|]
              && o.missing !in o.registry.delegate.subscriptions
    decreases |pending|
  {
    if pending == [] then Completed(r, [])
    else
      var id := pending[0];
      if id !in r.delegate.subscriptions then Panicked(r, [], id)
      else
        var r1 := Invoke(r, id, callback(r.delegate.subscriptions[id], value));
        var o := Dispatch(callback, value, pending[1..], r1);
        var calls := [Call(id, value)] + o.calls;
        IdsCons(Call(id, value), o.calls);
        assert pending[..|calls|] == [id] + pending[1..][..|o.calls|];
        match o
        case Completed(r2, _) => Completed(r2, calls)
        case Panicked(r2, _, missing) => Panicked(r2, calls, missing)
  }

  /** The ascending snapshot of the ids registered in `d`. */
  function Snapshot<C>(d: Delegate<C>): (ids: seq<Id>)
    ensures Ascending(ids)
    ensures forall id :: id in ids <==> id in d.subscriptions
    ensures |ids| == |d.subscriptions|
  {
    Ascend(d.subscriptions.Keys)
  }

  /**
   `broadcast(value)`: runs every callback registered when the pass starts,
   once each, in ascending id order, each with `value`.
   */
  function Broadcast<C, T>(callback: (C, T) -> Reaction<C>, value: T, d: Delegate<C>, nextId: Id)
    : (o: Outcome<C, T>)
    ensures |o.calls| <= |d.subscriptions| && Ids(o.calls) == Snapshot(d)[..|o.calls|]
    ensures o.Completed? ==> Ascending(Ids(o.calls))
    ensures o.Completed? ==> forall id :: id in Ids(o.calls) <==> id in d.subscriptions
    ensures forall i :: 0 <= i < |o.calls| ==> o.calls[i].value == value
    ensures o.registry.nextId >= nextId && OnlyAddsFrom(d, nextId, o.registry.delegate)
    ensures o.Panicked? ==> o.missing in d.subscriptions && o.missing !in o.registry.delegate.subscriptions
  {
    var pending := Snapshot(d);
    var o := Dispatch(callback, value, pending, Registry(d, nextId));
    assert o.Panicked? ==> o.missing in pending by {
      if o.Panicked? {
        assert pending[|o.calls|] == o.missing;
      }
    }
    o
  }

  /** `notify()`: a broadcast of the unit value. */
  function Notify<C>(callback: (C, ()) -> Reaction<C>, d: Delegate<C>, nextId: Id): (o: Outcome<C, ()>)
    ensures |o.calls| <= |d.subscriptions| && Ids(o.calls) == Snapshot(d)[..|o.calls|]
    ensures o.Completed? ==> Ids(o.calls) == Snapshot(d)
    ensures o.registry.nextId >= nextId && OnlyAddsFrom(d, nextId, o.registry.delegate)
    ensures o.Panicked? ==> o.missing in d.subscriptions
  {
    Broadcast(callback, (), d, nextId)
  }

  /** A broadcast pass that ran to its end. */
  datatype Pass<C, T> = Pass(registry: Registry<C>, calls: seq<Call<T>>)

  /**
   The broadcast loop as evidently intended: an id whose entry was removed
   earlier in the same pass (by an unsubscribe from a callback that ran
   before it) is skipped instead of panicking.
   */
  function DispatchSkipping<C, T>(callback: (C, T) -> Reaction<C>, value: T, pending: seq<Id>, r: Registry<C>)
    : (p: Pass<C, T>)
    ensures forall id :: id in Ids(p.calls) ==> id in pending
    ensures forall i :: 0 <= i < |p.calls| ==> p.calls[i].value == value
    ensures p.registry.nextId >= r.nextId
    ensures OnlyAddsFrom(r.delegate, r.nextId, p.registry.delegate)
    ensures IssuedBefore(r.delegate, r.nextId) ==> IssuedBefore(p.registry.delegate, p.registry.nextId)
    decreases |pending|
  {
    if pending == [] then Pass(r, [])
    else
      var id := pending[0];
      if id !in r.delegate.subscriptions then
        DispatchSkipping(callback, value, pending[1..], r)
      else
        var r1 := Invoke(r, id, callback(r.delegate.subscriptions[id], value));
        var p := DispatchSkipping(callback, value, pending[1..], r1);
        IdsCons(Call(id, value), p.calls);
        Pass(p.registry, [Call(id, value)] + p.calls)
  }

  /** Over an ascending list of pending ids, the corrected pass runs callbacks in ascending id order. */
  lemma {:induction false} DispatchSkippingAscending<C, T>(
    callback: (C, T) -> Reaction<C>, value: T, pending: seq<Id>, r: Registry<C>)
    requires Ascending(pending)
    ensures Ascending(Ids(DispatchSkipping(callback, value, pending, r).calls))
    decreases |pending|
  {
    if pending != [] {
      var id := pending[0];
      if id !in r.delegate.subscriptions {
        DispatchSkippingAscending(callback, value, pending[1..], r);
      } else {
        var r1 := Invoke(r, id, callback(r.delegate.subscriptions[id], value));
        DispatchSkippingAscending(callback, value, pending[1..], r1);
        var p := DispatchSkipping(callback, value, pending[1..], r1);
        IdsCons(Call(id, value), p.calls);
        ConsAscending(pending, Ids(p.calls));
      }
    }
  }

  /**
   The corrected `broadcast(value)`: it always completes, and runs each
   callback registered when the pass starts at most once, in ascending id
   order.
   */
  function BroadcastSkipping<C, T>(callback: (C, T) -> Reaction<C>, value: T, d: Delegate<C>, nextId: Id)
    : (p: Pass<C, T>)
    ensures Ascending(Ids(p.calls))
    ensures forall id :: id in Ids(p.calls) ==> id in d.subscriptions
    ensures forall i :: 0 <= i < |p.calls| ==> p.calls[i].value == value
    ensures p.registry.nextId >= nextId && OnlyAddsFrom(d, nextId, p.registry.delegate)
  {
    DispatchSkippingAscending(callback, value, Snapshot(d), Registry(d, nextId));
    DispatchSkipping(callback, value, Snapshot(d), Registry(d, nextId))
  }
}

=== FILE: observables.dfy ===
/**
 An observable: a value paired with a delegate, broadcasting the value after
 every mutation.

 `mutate` takes the observable exclusively, so a callback cannot reach the
 observable (nor its delegate) while it runs: an observable's callbacks are
 modelled by the response alone, `(C, T) -> Response`, with no reentrant
 actions.
 */
module Observables {
  import opened Delegates
  import DelegateLaws

  datatype Observable<T, C> = Observable(value: T, delegate: Delegate<C>)

  datatype Subscribed<T, C> = Subscribed(observable: Observable<T, C>, nextId: Id, subscription: Subscription)

  /** The observable after `mutate`, and the callback invocations of its one broadcast. */
  datatype Mutated<T, C> = Mutated(observable: Observable<T, C>, calls: seq<Call<T>>)

  /** `Observable::new(value)`: holds `value`, nobody subscribed. */
  function New<T, C>(value: T): (o: Observable<T, C>)
    ensures o.value == value
    ensures |o.delegate.subscriptions| == 0
  {
    Observable(value, Delegates.New())
  }

  /** `Observable::default()`, given the value type's default `zero`. */
  function Default<T, C>(zero: T): (o: Observable<T, C>)
    ensures o == New(zero)
    ensures o.value == zero && |o.delegate.subscriptions| == 0
  {
    New(zero)
  }

  /** Subscribing to an observable is subscribing to its delegate; the value is untouched. */
  function Subscribe<T, C>(o: Observable<T, C>, nextId: Id, callback: C): (r: Subscribed<T, C>)
    ensures r.observable.value == o.value
    ensures var inner := Delegates.Subscribe(o.delegate, nextId, callback);
            r.observable.delegate == inner.registry.delegate
            && r.nextId == inner.registry.nextId
            && r.subscription == inner.subscription
    ensures IssuedBefore(o.delegate, nextId) ==> r.subscription.id !in o.delegate.subscriptions
  {
    var inner := Delegates.Subscribe(o.delegate, nextId, callback);
    Subscribed(Observable(o.value, inner.registry.delegate), inner.registry.nextId, inner.subscription)
  }

  /** Unsubscribing from an observable is unsubscribing from its delegate; the value is untouched. */
  function Unsubscribe<T, C>(o: Observable<T, C>, s: Subscription): (r: Observable<T, C>)
    ensures r.value == o.value
    ensures r.delegate == Delegates.Unsubscribe(o.delegate, s)
    ensures s.id !in o.delegate.subscriptions ==> r == o
  {
    Observable(o.value, Delegates.Unsubscribe(o.delegate, s))
  }

  /**
   `delegate()`: access to the inner delegate, the observable's whole state
   besides its value. Subscribing or unsubscribing through it is the same as
   doing so through the observable (`SubscribeThroughDelegate`).
   */
  function DelegateOf<T, C>(o: Observable<T, C>): (d: Delegate<C>)
    ensures Observable(o.value, d) == o
  {
    o.delegate
  }

  /**
   `Deref`: reads the current value; reading changes nothing and broadcasts
   nothing. An observable nobody subscribed to is `New` of the value read;
   `ReadAfterMutate` relates reading to `mutate`.
   */
  function Value<T, C>(o: Observable<T, C>): (v: T)
    ensures Observable(v, o.delegate) == o
    ensures o == New(v) <==> o.delegate.subscriptions == map[]
  {
    o.value
  }

  /** An observable's callback as a delegate callback that makes no reentrant calls. */
  function Responding<C, T>(respond: (C, T) -> Response): (C, T) -> Reaction<C> {
    (c: C, v: T) => Reaction(respond(c, v), [])
  }

  /**
   An id above every registered one. An observable's callbacks never
   subscribe, so the broadcast of `mutate` never draws from the id counter;
   any bound above the registered ids stands in for it.
   */
  function Above<C>(d: Delegate<C>): (bound: Id)
    ensures IssuedBefore(d, bound)
  {
    var ids := Snapshot(d);
    if |ids| == 0 then 0
    else
      assert forall id :: id in d.subscriptions ==> id <= ids[|ids| - 1] by {
        forall id | id in d.subscriptions
          ensures id <= ids[|ids| - 1]
        {
          var i :| 0 <= i < |ids| && ids[i] == id;
          assert i == |ids| - 1 || ids[i] < ids[|ids| - 1];
        }
      }
      ids[|ids| - 1] + 1
  }

  lemma RespondingReacts<C, T>(respond: (C, T) -> Response, c: C, v: T)
    ensures Responding(respond)(c, v) == Reaction(respond(c, v), [])
  {
  }

  /**
   The pass as written, on callbacks that only respond: it completes, runs
   each callback once in ascending id order, and removes exactly those
   answering CancelSubscription.
   */
  lemma ResponseOnlyDispatch<C, T>(respond: (C, T) -> Response, value: T, d: Delegate<C>, bound: Id)
    requires IssuedBefore(d, bound)
    ensures var b := Broadcast(Responding(respond), value, d, bound);
            && b.Completed? && Ids(b.calls) == Snapshot(d)
            && (forall id :: id in b.registry.delegate.subscriptions <==>
                  id in d.subscriptions && respond(d.subscriptions[id], value) == StaySubscribed)
            && (forall id :: id in b.registry.delegate.subscriptions ==>
                  b.registry.delegate.subscriptions[id] == d.subscriptions[id])
  {
    var callback := Responding(respond);
    forall id | id in d.subscriptions
      ensures callback(d.subscriptions[id], value) == Reaction(respond(d.subscriptions[id], value), [])
    {
      RespondingReacts(respond, d.subscriptions[id], value);
    }
    DelegateLaws.BroadcastWithoutUnsubscribes(callback, value, d, bound);
    var b := Broadcast(callback, value, d, bound);
    assert b.registry.nextId == bound;
    forall id | id in d.subscriptions
      ensures DelegateLaws.Stays(callback, value, d, id) <==> respond(d.subscriptions[id], value) == StaySubscribed
    {
    }
  }

  /**
   The broadcast of `mutate`: callbacks that only respond run exactly once
   each, in ascending id order, and exactly those answering
   CancelSubscription are removed.
   */
  lemma ResponseOnlyBroadcast<C, T>(respond: (C, T) -> Response, value: T, d: Delegate<C>)
    ensures var p := BroadcastSkipping(Responding(respond), value, d, Above(d));
            && Ids(p.calls) == Snapshot(d)
            && (forall id :: id in p.registry.delegate.subscriptions <==>
                  id in d.subscriptions && respond(d.subscriptions[id], value) == StaySubscribed)
            && (forall id :: id in p.registry.delegate.subscriptions ==>
                  p.registry.delegate.subscriptions[id] == d.subscriptions[id])
  {
    ResponseOnlyDispatch(respond, value, d, Above(d));
    DelegateLaws.SkippingAgreesWithBroadcast(Responding(respond), value, d, Above(d));
  }

  /**
   `mutate(mutation)`: applies `mutation` to the value, then broadcasts the
   new value exactly once, whether or not it changed. Every callback
   subscribed beforehand runs once, in ascending id order, and sees the new
   value; those that answer CancelSubscription are gone afterwards.
   */
  function Mutate<T, C>(o: Observable<T, C>, mutation: T -> T, respond: (C, T) -> Response): (r: Mutated<T, C>)
    ensures r.observable.value == mutation(o.value)
    ensures Ids(r.calls) == Snapshot(o.delegate)
    ensures forall i :: 0 <= i < |r.calls| ==> r.calls[i].value == mutation(o.value)
    ensures forall id :: id in r.observable.delegate.subscriptions <==>
              id in o.delegate.subscriptions && respond(o.delegate.subscriptions[id], mutation(o.value)) == StaySubscribed
    ensures forall id :: id in r.observable.delegate.subscriptions ==>
              r.observable.delegate.subscriptions[id] == o.delegate.subscriptions[id]
  {
    var value := mutation(o.value);
    ResponseOnlyBroadcast(respond, value, o.delegate);
    var p := BroadcastSkipping(Responding(respond), value, o.delegate, Above(o.delegate));
    Mutated(Observable(value, p.registry.delegate), p.calls)
  }

  /** After `mutate`, reading gives the mutated value. */
  lemma ReadAfterMutate<T, C>(o: Observable<T, C>, mutation: T -> T, respond: (C, T) -> Response)
    ensures Value(Mutate(o, mutation, respond).observable) == mutation(Value(o))
    ensures Value(New<T, C>(Value(o))) == Value(o)
  {
  }

  /**
   There is no dirty check: a mutation that leaves the value as it was
   still broadcasts it to every subscriber.
   */
  lemma MutateWithoutChangeStillBroadcasts<T, C>(o: Observable<T, C>, respond: (C, T) -> Response)
    ensures Mutate(o, v => v, respond).observable.value == o.value
    ensures |Mutate(o, v => v, respond).calls| == |o.delegate.subscriptions|
    ensures forall id :: id in o.delegate.subscriptions ==> id in Ids(Mutate(o, v => v, respond).calls)
  {
  }

  /** Once unsubscribed, a callback is never run by a later `mutate`. */
  lemma UnsubscribedNotNotified<T, C>(o: Observable<T, C>, s: Subscription, mutation: T -> T, respond: (C, T) -> Response)
    ensures s.id !in Ids(Mutate(Unsubscribe(o, s), mutation, respond).calls)
    ensures s.id !in Mutate(Unsubscribe(o, s), mutation, respond).observable.delegate.subscriptions
  {
  }

  /**
   `delegate()` hands out the subscription capability and nothing else:
   subscribing through it registers the same callback under the same id as
   subscribing through the observable.
   */
  lemma SubscribeThroughDelegate<T, C>(o: Observable<T, C>, nextId: Id, callback: C)
    ensures Delegates.Subscribe(DelegateOf(o), nextId, callback).registry.delegate
            == Subscribe(o, nextId, callback).observable.delegate
    ensures DelegateOf(Unsubscribe(o, Subscription(nextId))) == Delegates.Unsubscribe(DelegateOf(o), Subscription(nextId))
  {
  }
}

=== FILE: scenarios.dfy ===
/**
 The repository's tests, restated as lemmas about the model. Each starts
 from an arbitrary value of the process-wide id counter, since other code
 may have drawn ids before; callback tokens are naturals.
 */
module Scenarios {
  import opened Delegates
  import opened DelegateLaws
  import Observables

  /** A callback that does nothing reentrant and stays subscribed. */
  function Staying(): (nat, ()) -> Reaction<nat> {
    (c: nat, v: ()) => Reaction(StaySubscribed, [])
  }

  /** A callback that does nothing reentrant and cancels itself by its response. */
  function Cancelling(): (nat, ()) -> Reaction<nat> {
    (c: nat, v: ()) => Reaction(CancelSubscription, [])
  }

  /**
   A callback whose token is its own subscription id: it unsubscribes that
   id from inside itself, then answers StaySubscribed.
   */
  function SelfUnsubscribing(): (nat, ()) -> Reaction<nat> {
    (c: nat, v: ()) => Reaction(StaySubscribed, [DoUnsubscribe(Subscription(c))])
  }

  /** One subscription, notified three times, runs three times. */
  lemma ExecutesCallbacks(nextId: Id)
    ensures var s := Subscribe(New<nat>(), nextId, 0);
            var o := NotifyTimes(Staying(), s.registry.delegate, s.registry.nextId, 3);
            o.Completed? && Ids(o.calls) == [nextId, nextId, nextId]
  {
    assert Subscribe(New<nat>(), nextId, 0).registry == Registry(Delegate(map[nextId := 0]), nextId + 1);
    StayingSingleton(nextId, 3);
    RepeatThree(nextId);
  }

  /** `k` notifications of one staying subscription call it `k` times. */
  lemma StayingSingleton(nextId: Id, k: nat)
    ensures var o := NotifyTimes(Staying(), Delegate(map[nextId := 0]), nextId + 1, k);
            o.Completed? && Ids(o.calls) == Repeat([nextId], k)
  {
    SingletonSnapshot(nextId, 0);
    RepeatedNotify(Staying(), Delegate(map[nextId := 0]), nextId + 1, k);
  }

  lemma RepeatThree(x: Id)
    ensures Repeat([x], 3) == [x, x, x]
  {
    assert Repeat([x], 1) == [x];
    assert Repeat([x], 2) == [x, x];
  }

  /** A subscription cancelled before a notification is not run by it. */
  lemma DoesNotExecuteUnsubscribed(nextId: Id)
    ensures var s := Subscribe(New<nat>(), nextId, 0);
            var d := Unsubscribe(s.registry.delegate, s.subscription);
            d == New<nat>() && Notify(Staying(), d, s.registry.nextId) == Completed(Registry(d, nextId + 1), [])
  {
    var s := Subscribe(New<nat>(), nextId, 0);
    var d := Unsubscribe(s.registry.delegate, s.subscription);
    assert d.subscriptions == map[];
    assert Snapshot(d) == [];
  }

  /**
   A subscription issued by another delegate means nothing here: after any
   run of subscribes, unsubscribes and broadcasts on `d` (and subscribes
   elsewhere), presenting it to `Unsubscribe` leaves `d` as it is, whatever
   the other delegate holds, because the shared counter never hands out an
   id twice and no operation on `d` adds an id below the counter.
   */
  lemma ForeignUnsubscribeIsNoop<C, T>(d: Delegate<C>, other: Delegate<C>, nextId: Id, callback: C, ops: seq<Op<C, T>>)
    requires IssuedBefore(d, nextId)
    ensures var s := Subscribe(other, nextId, callback);
            var r := Run(Registry(d, s.registry.nextId), ops);
            Unsubscribe(r.delegate, s.subscription) == r.delegate
  {
  }

  /** The test's instance: the first delegate's callback still runs. */
  lemma CannotUnsubscribeForeignSubscription(nextId: Id)
    ensures var s1 := Subscribe(New<nat>(), nextId, 0);
            var s2 := Subscribe(New<nat>(), s1.registry.nextId, 1);
            var d1 := Unsubscribe(s1.registry.delegate, s2.subscription);
            var o := Notify(Staying(), d1, s2.registry.nextId);
            d1 == s1.registry.delegate && o.Completed? && Ids(o.calls) == [nextId]
  {
    var s1 := Subscribe(New<nat>(), nextId, 0);
    assert s1.registry.delegate == Delegate(map[nextId := 0]);
    ForeignUnsubscribeIsNoop<nat, ()>(s1.registry.delegate, New<nat>(), s1.registry.nextId, 1, []);
    SingletonSnapshot(nextId, 0);
    StayingBroadcastChangesNothing(Staying(), (), s1.registry.delegate, nextId + 2);
  }

  /** One notification of the self-unsubscribing callback: it runs and is still there. */
  lemma SelfUnsubscribingNotify(nextId: Id)
    ensures Notify(SelfUnsubscribing(), Delegate(map[nextId := nextId]), nextId + 1)
            == Completed(Registry(Delegate(map[nextId := nextId]), nextId + 1), [Call(nextId, ())])
  {
    var r := Registry(Delegate(map[nextId := nextId]), nextId + 1);
    assert Snapshot(r.delegate) == [nextId] by {
      SingletonSnapshot(nextId, nextId);
    }
    SelfUnsubscribingTurn(nextId);
    assert [nextId][1..] == [];
    assert Dispatch(SelfUnsubscribing(), (), [], r) == Completed(r, []);
    assert Dispatch(SelfUnsubscribing(), (), [nextId], r) == Completed(r, [Call(nextId, ())]);
  }

  /** The one turn of that notification leaves the registry as it was. */
  lemma SelfUnsubscribingTurn(nextId: Id)
    ensures var r := Registry(Delegate(map[nextId := nextId]), nextId + 1);
            Invoke(r, nextId, SelfUnsubscribing()(nextId, ())) == r
  {
    var r := Registry(Delegate(map[nextId := nextId]), nextId + 1);
    var none: seq<Action<nat>> := [];
    SelfUnsubscribeIsNoop(r, nextId, StaySubscribed, none, none);
    assert none + [DoUnsubscribe(Subscription(nextId))] + none == [DoUnsubscribe(Subscription(nextId))];
    assert Invoke(r, nextId, Reaction(StaySubscribed, [])).delegate.subscriptions == r.delegate.subscriptions;
  }

  /** Unsubscribing from within the callback is a no-op: two notifications, two calls. */
  lemma UnsubscribingWithinCallbackIsNoop(nextId: Id)
    ensures var s := Subscribe(New<nat>(), nextId, nextId);
            var o := NotifyTimes(SelfUnsubscribing(), s.registry.delegate, s.registry.nextId, 2);
            o.Completed? && Ids(o.calls) == [nextId, nextId]
  {
    var s := Subscribe(New<nat>(), nextId, nextId);
    assert s.registry == Registry(Delegate(map[nextId := nextId]), nextId + 1);
    SelfUnsubscribingNotify(nextId);
  }

  /** A callback answering CancelSubscription runs once over two notifications. */
  lemma CanUnsubscribeUsingResponse(nextId: Id)
    ensures var s := Subscribe(New<nat>(), nextId, 0);
            var o := NotifyTimes(Cancelling(), s.registry.delegate, s.registry.nextId, 2);
            o.Completed? && Ids(o.calls) == [nextId]
  {
    var s := Subscribe(New<nat>(), nextId, 0);
    var d := s.registry.delegate;
    assert d == Delegate(map[nextId := 0]);
    SingletonSnapshot(nextId, 0);
    BroadcastWithoutUnsubscribes(Cancelling(), (), d, nextId + 1);
    var first := Notify(Cancelling(), d, nextId + 1);
    assert first.registry.delegate.subscriptions == map[];
    assert Snapshot(first.registry.delegate) == [];
  }

  /** A subscriber of `Observable::new(0)` sees 42 after `mutate` sets 42. */
  lemma ObservableBroadcastsNewValues(nextId: Id)
    ensures var s := Observables.Subscribe(Observables.New<int, nat>(0), nextId, 0);
            var m := Observables.Mutate(s.observable, (v: int) => 42, (c: nat, v: int) => StaySubscribed);
            m.calls == [Call(nextId, 42)]
  {
    var s := Observables.Subscribe(Observables.New<int, nat>(0), nextId, 0);
    assert s.observable.delegate == Delegate(map[nextId := 0]);
    SingletonSnapshot(nextId, 0);
  }

  /** After unsubscribing, a second `mutate` does not run the callback: one call over two mutations. */
  lemma ObservableNoLongerNotifiesAfterUnsubscribe(nextId: Id)
    ensures var s := Observables.Subscribe(Observables.New<int, nat>(0), nextId, 0);
            var respond := (c: nat, v: int) => StaySubscribed;
            var m1 := Observables.Mutate(s.observable, (v: int) => 42, respond);
            var o2 := Observables.Unsubscribe(m1.observable, s.subscription);
            var m2 := Observables.Mutate(o2, (v: int) => 43, respond);
            |m1.calls| + |m2.calls| == 1 && o2.value == 42 && m2.observable.value == 43
  {
    var s := Observables.Subscribe(Observables.New<int, nat>(0), nextId, 0);
    assert s.observable.delegate == Delegate(map[nextId := 0]);
    SingletonSnapshot(nextId, 0);
    var respond := (c: nat, v: int) => StaySubscribed;
    var m1 := Observables.Mutate(s.observable, (v: int) => 42, respond);
    var o2 := Observables.Unsubscribe(m1.observable, s.subscription);
    assert o2.delegate.subscriptions == map[];
    assert Snapshot(o2.delegate) == [];
  }
}

=== FILE: snapshots.dfy ===
/**
 The key snapshot a broadcast pass iterates over. The delegate keeps its
 subscriptions in an ordered map and copies the map's keys out before the
 first callback runs; an ordered map yields its keys in ascending order, so
 the snapshot is the strictly ascending enumeration of the key set.
 */
module Snapshots {

  /** Strictly ascending, hence also free of duplicates. */
  predicate Ascending(s: seq<nat>) {
    forall i, j :: 0 <= i < j < |s| ==> s[i] < s[j]
  }

  predicate IsLeast(m: nat, s: set<nat>) {
    m in s && forall x :: x in s ==> m <= x
  }

  lemma {:induction false} LeastExists(s: set<nat>)
    requires s != {}
    ensures exists m :: IsLeast(m, s)
    decreases |s|
  {
    var x :| x in s;
    if s - {x} == {} {
      assert forall y :: y in s ==> y == x || y in s - {x};
      assert IsLeast(x, s);
    } else {
      LeastExists(s - {x});
      var m :| IsLeast(m, s - {x});
      assert forall y :: y in s ==> y == x || y in s - {x};
      if x < m {
        assert IsLeast(x, s);
      } else {
        assert IsLeast(m, s);
      }
    }
  }

  function Least(s: set<nat>): (m: nat)
    requires s != {}
    ensures IsLeast(m, s)
  {
    LeastExists(s);
    var m :| IsLeast(m, s);
    m
  }

  /** The ascending enumeration of a finite set of ids. */
  function Ascend(s: set<nat>): (r: seq<nat>)
    ensures Ascending(r)
    ensures forall k :: k in r <==> k in s
    ensures |r| == |s|
    decreases |s|
  {
    if s == {} then []
    else
      var m := Least(s);
      var rest := Ascend(s - {m});
      assert forall j :: 0 <= j < |rest| ==> m < rest[j] by {
        forall j | 0 <= j < |rest|
          ensures m < rest[j]
        {
          assert rest[j] in rest;
        }
      }
      [m] + rest
  }

  /** The head of an ascending sequence is below every other element. */
  lemma HeadIsLeast(a: seq<nat>, k: nat)
    requires Ascending(a) && k in a
    ensures a[0] <= k
  {
    var i :| 0 <= i < |a| && a[i] == k;
    if i > 0 {
      assert a[0] < a[i];
    }
  }

  /** Dropping the head of an ascending sequence drops exactly that element. */
  lemma TailElements(a: seq<nat>, k: nat)
    requires Ascending(a) && |a| > 0
    ensures k in a[1..] <==> k in a && k != a[0]
  {
    if k in a && k != a[0] {
      var i :| 0 <= i < |a| && a[i] == k;
      assert a[1..][i - 1] == k;
    }
    if k in a[1..] {
      var i :| 0 <= i < |a[1..]| && a[1..][i] == k;
      assert a[i + 1] == k;
      assert a[0] < a[i + 1];
    }
  }

  /** The head of an ascending sequence may go in front of any ascending selection from its tail. */
  lemma ConsAscending(s: seq<nat>, picked: seq<nat>)
    requires Ascending(s) && |s| > 0 && Ascending(picked)
    requires forall k :: k in picked ==> k in s[1..]
    ensures Ascending([s[0]] + picked)
  {
    forall j | 0 <= j < |picked|
      ensures s[0] < picked[j]
    {
      assert picked[j] in picked;
      TailElements(s, picked[j]);
    }
  }

  /**
   Not a property of the model: a proof step for `AscendingEnumerationUnique`,
   which names the head of a non-empty sequence as one of its elements.
   */
  lemma NonEmptyHasHead(s: seq<nat>)
    ensures s != [] ==> s[0] in s
  {
  }

  /**
   Two ascending sequences with the same elements are equal: the snapshot is
   determined by the key set alone.
   */
  lemma {:induction false} AscendingEnumerationUnique(a: seq<nat>, b: seq<nat>)
    requires Ascending(a) && Ascending(b)
    requires forall k :: k in a <==> k in b
    ensures a == b
    decreases |a|
  {
    if a == [] {
      NonEmptyHasHead(b);
    } else {
      assert a[0] in a;
      assert b != [] && a[0] in b;
      assert b[0] in b;
      HeadIsLeast(b, a[0]);
      HeadIsLeast(a, b[0]);
      forall k
        ensures k in a[1..] <==> k in b[1..]
      {
        TailElements(a, k);
        TailElements(b, k);
      }
      AscendingEnumerationUnique(a[1..], b[1..]);
      assert a == [a[0]] + a[1..];
      assert b == [b[0]] + b[1..];
    }
  }

  /** `Ascend` is the only ascending enumeration of a set. */
  lemma AscendIsTheEnumeration(s: set<nat>, r: seq<nat>)
    requires Ascending(r)
    requires forall k :: k in r <==> k in s
    ensures r == Ascend(s)
  {
    AscendingEnumerationUnique(r, Ascend(s));
  }
}
